=== FILE: README.md ===
# Bitbucket commit status publisher: a Dafny model

`publishstatus-bitbucket.js` is a one-shot command-line script. It posts a
build status (`INPROGRESS`, `SUCCESSFUL` or `FAILED`) for one commit to the
build-status REST endpoint of a Bitbucket Server. This project models its
three pure decision procedures as functions over explicit inputs:

- **Configuration** (`composeCmdConfig`, `recognizeBuildServer`, the `tryGet*`
  helpers). Each field takes the first non-empty value among its short
  flag, its long flag, its CI-derived value and its default. CI values exist
  only on an Azure DevOps agent. The five required fields are validated in
  a fixed order.
- **Request** (`getAuthorization` and the URL of `postStatus`). This covers
  the endpoint, the Basic credential and the headers.
- **Outcome** (the response callback of `postStatus`). One decision step
  on the status code, the attempt counter and the retry limit. `doTheJob`
  starts the counter at 1.

The parsed command line is a `map<string, string>`. The process environment
is a `map<string, string>`. Base64 encoding is a function parameter. The
server's reply is an input. `process.exit` and the printed messages become
returned values (`RunResult`, `Termination`).

JavaScript's `||` is modelled exactly (`Js.Or`, `Js.Chain`): a falsy left
operand yields the right operand *as it is*, whether that is `""` or
`undefined`. This matters for the Azure build name, where an unset
configuration name or build number is interpolated as `"undefined"`. So on
Azure DevOps the payload always carries a name.

Modules:
- `Wrappers`: `Option` and `Result`.
- `Js`: truthiness, `||`, template interpolation, and `Number(text)` for
  plain decimals.
- `BuildServer`: CI detection and the CI-derived values.
- `Errors`: the fatal errors and their messages.
- `CmdConfig`: the configuration.
- `Request`: the endpoint, credential and request.
- `Response`: the decision on one reply.
- `Publisher`: `doTheJob` and how the process ends, as written.
- `Retry`: the retry that the commented-out calls leave undone, with the
  report the callback evidently intends.

Where the code differs from what the file itself announces, the model
follows the code:
- The endpoint path is `/rest/build-status/latest/commits/`, not the
  `1.0` path of the header comment (lines 4-10).
- `state` is any string, not one of the three states the header comment
  and the help text (line 21) list.
- Only Azure DevOps is recognized. Jenkins and TeamCity are named but never
  detected.

As written, the script makes exactly one attempt: the calls that would
retry (lines 170, 175 and 182) are comments. `Retry` performs the retry
those comments leave undone, and where the code gives no answer, its
choices are these:
- The counter advances on a transient status as at line 153. With the
  counter starting at 1 and the test `retryNum + 1 > maxRetry`, a run of
  transient replies is then exhausted after `max(1, maxRetry)` attempts,
  although the help text (line 24) calls `maxRetry` a number of retries
  (`Retry.AllTransientExhausts`, `Retry.InitialAttempts`).
- A connection error is counted too (`Retry.Step`), because line 24
  promises retries "in the case of transient failure". The error handler's
  call at line 182 would instead pass the counter on unchanged, so a
  persistent connection error would be retried forever.
- The attempts stop once the limit is exceeded. The call at line 170
  comes after the exhaustion report of lines 155-166 and would try again
  past the limit.

## Model

| member | source | states |
|---|---|---|
| `Js.Chain` | publishstatus-bitbucket.js:94-101 | A chain of `||` operators yields the first truthy operand; when none is truthy it yields the last operand unchanged. It is truthy exactly when some operand is. |
| `Js.ToNumber` | publishstatus-bitbucket.js:154 | A limit given as text compares as a number exactly when it is a plain decimal; otherwise it is NaN. |
| `Js.DecimalRoundTrip` | publishstatus-bitbucket.js:156 | A status code interpolated into the report reads back as the same number. |
| `BuildServer.RecognizeBuildServer` | publishstatus-bitbucket.js:42-48 | Azure DevOps is recognized exactly when `AGENT_OSARCHITECTURE` is set and non-empty. Otherwise the server is unknown, never Jenkins or TeamCity. |
| `BuildServer.OnlyAzureDerivesValues` | publishstatus-bitbucket.js:50-90 | Off Azure DevOps every `tryGet*` helper yields undefined. |
| `BuildServer.ConfigurationNameFallback` | publishstatus-bitbucket.js:64-69 | On Azure DevOps the configuration name is `Build.DefinitionName` when non-empty. Otherwise it is `Agent.JobName`, as it is. |
| `BuildServer.AzureBuildNameAlwaysTruthy` | publishstatus-bitbucket.js:71-76 | On Azure DevOps the build name is exactly the interpolated configuration name, ` - `, and the interpolated `Build.BuildNumber`, and it is never empty. A missing build number is spelled `undefined`. |
| `CmdConfig.ComposeCmdConfig` | publishstatus-bitbucket.js:92-120 | Fails with exactly the first missing field, in the order server, commit, username, key, url. Succeeds exactly when all five are present. Each field is the first non-empty source in priority order. `state` falls back to SUCCESSFUL and `maxRetry` to 100 only when every source is empty. `name` and `description` are present exactly when a source gives them, and present fields are non-empty. |
| `CmdConfig.ServerOnlyFromFlags` | publishstatus-bitbucket.js:94-105 | The server has no environment fallback. Without `-b`/`--bitbucket-server` the run stops with the server message. |
| `CmdConfig.DescriptionOnlyFromFlags` | publishstatus-bitbucket.js:115-117 | The description is present exactly when `-d` or `--description` is non-empty. No CI server supplies one. |
| `CmdConfig.OffAzureRequiredFromFlags` | publishstatus-bitbucket.js:95-101 | Off Azure DevOps, the commit, build key and build URL are each the first non-empty of their short and long flag. |
| `CmdConfig.OffAzureOnlyFlags` | publishstatus-bitbucket.js:99-113 | Off Azure DevOps, `state` goes straight from the flags to SUCCESSFUL. The name is present exactly when a name flag is non-empty. |
| `CmdConfig.AzureAlwaysNamesBuild` | publishstatus-bitbucket.js:111-113 | On Azure DevOps every valid configuration's payload has a name. |
| `Request.EndpointRoundTrip` | publishstatus-bitbucket.js:135 | For any server, including a base URL with a context path such as `host/bitbucket`, and a commit without `/`, the endpoint `https://<server>/rest/build-status/latest/commits/<commit>` reads back as that server and commit. |
| `Request.GetAuthorization` | publishstatus-bitbucket.js:122-128 | Fails, with the password message, exactly when `BITBUCKET_PASSWORD` is unset or empty. Otherwise the header is `Basic ` followed by the base64 of `username:password`. |
| `Request.CredentialRoundTrip` | publishstatus-bitbucket.js:127 | For a username without `:`, the credential splits at its first `:` back into that username and password. |
| `Request.BuildRequest` | publishstatus-bitbucket.js:133-142 | Fails exactly when authorization fails. Otherwise it is a POST to the commit's endpoint with the payload as body and exactly three headers: `X-Atlassian-Token: no-check`, the JSON content type, and the authorization `GetAuthorization` gives. |
| `Response.RetryLimit` | publishstatus-bitbucket.js:97 | The default limit is 100. A bare switch (boolean `true`) compares as 1. Any other limit given as text is numeric exactly when it is a plain decimal. |
| `Response.Decide` | publishstatus-bitbucket.js:144-154 | A 2xx status publishes whatever the counter. A 401 fails for good whatever the limit. Any other status advances the counter to `retryNum + 1`, and the limit is exhausted exactly when that counter exceeds it. |
| `Response.OnReply` | publishstatus-bitbucket.js:143-183 | An answered reply gets exactly `Decide`'s decision with the given counter and limit. As written, a connection error is only logged: it is neither counted nor retried. |
| `Response.ExhaustionMonotone` | publishstatus-bitbucket.js:153-154 | Once a counter exceeds the limit, every larger counter does too. |
| `Response.FirstReplyExhaustsIff` | publishstatus-bitbucket.js:153-154 | With the initial counter 1, the first transient reply exhausts a numeric limit exactly when the limit is below 2. |
| `Response.NaNLimitNeverExhausts` | publishstatus-bitbucket.js:154 | A limit text that is neither a plain decimal nor a bare switch is NaN and never exceeded. |
| `Response.BareSwitchExhaustsFirst` | publishstatus-bitbucket.js:153-154 | A bare `-r` (line 97 keeps it as `true`) compares as 1, so from counter 1 the first transient reply exhausts the limit at counter 2. |
| `Publisher.DoTheJob` | publishstatus-bitbucket.js:189-199 | Help wins. A configuration error aborts with that error. A missing password aborts next. Otherwise the request sent is exactly the one `BuildRequest` builds, to the configured endpoint with the payload, and the single reply is decided with counter 1 and the configured limit. |
| `Publisher.Finish` | publishstatus-bitbucket.js:143-183 | As written, the process ends with status 0 exactly for help, a 2xx, a transient reply with the limit not exceeded, or a connection error. An exhausted limit ends in the ReferenceError of line 155. |
| `Publisher.UnpublishedRunExitsZero` | publishstatus-bitbucket.js:172-183 | As written, once the request is sent, a transient reply with the limit not exceeded, or a connection error, ends with status 0 although nothing was published. |
| `Publisher.ExampleConfig` | publishstatus-bitbucket.js:92-120 | The example resolves to state SUCCESSFUL, key `ci-job`, url `http://ci/42`, and no name or description. |
| `Publisher.ExampleRequest` | publishstatus-bitbucket.js:122-142 | The example's request carries the Basic credential of `bot:secret`. |
| `Publisher.ExampleRun` | publishstatus-bitbucket.js:133-146 | The example answered with 204 sends one POST to `Endpoint("git.example.com", "abc123")`, that is `https://git.example.com/rest/build-status/latest/commits/abc123`, with body `{state, key, url}`, and ends with status 0. |
| `Publisher.ExampleServerErrorExitsZero` | publishstatus-bitbucket.js:153-176 | The example answered with 500 leaves a retry pending with counter 2, and the process ends with status 0. |
| `Publisher.ExampleBareSwitchCrashes` | publishstatus-bitbucket.js:153-155 | With a bare `-r` (line 97 keeps it as `true`), a 500 reply exhausts the limit at counter 2, and the report throws the ReferenceError. |
| `Publisher.ExampleExhaustionCrashes` | publishstatus-bitbucket.js:153-156 | With `-r 1`, a 500 reply exhausts the limit at counter 2, and the report throws the ReferenceError instead of printing. |
| `Retry.Step` | publishstatus-bitbucket.js:143-183 | One attempt of the intended retry. 2xx publishes and 401 fails for good. A transient status or a connection error advances the counter and exhausts the limit exactly when the counter exceeds it. |
| `Retry.PublishWithRetry` | publishstatus-bitbucket.js:168-183 | The attempts with the retry performed. They never end in an uncounted connection error. They are still pending only when every reply was transient. An exhausted run reports one of the replies, and a transient one. |
| `Retry.PublishedIff` | publishstatus-bitbucket.js:144-176 | The attempts end in success exactly when some attempt that is made gets a 2xx, after only transient replies before it. |
| `Retry.RejectedIff` | publishstatus-bitbucket.js:148-150 | The attempts end in an authorization failure exactly when some attempt that is made gets a 401, after only transient replies before it, whatever retries the limit still allows. |
| `Retry.AllTransientExhausts` | publishstatus-bitbucket.js:153-154 | When every reply the allowed attempts get is transient, whatever the later replies, the attempts end exhausted after exactly the allowed number of them, reporting the last reply. |
| `Retry.InitialAttempts` | publishstatus-bitbucket.js:198 | From counter 1, a numeric limit `m` allows `max(1, m)` attempts. |
| `Retry.LimitText` | publishstatus-bitbucket.js:97 | The limit an exhaustion report names is the flag's text as given, or, by default, a decimal that reads back as 100. |
| `Retry.Report` | publishstatus-bitbucket.js:144-166 | The intended ending. Status 0 exactly on success, and status 1 on a 401 or on exhaustion. An exhaustion report opens with the limit as given (or 100), then names the last status code and the response body. |
| `Retry.ReportedCodeReadsBack` | publishstatus-bitbucket.js:156 | The status-code line of the report reads back as the last status code. |
| `Retry.RunWithRetry` | publishstatus-bitbucket.js:189-199 | `doTheJob` with the retry performed. Help exits 0. A configuration error exits 1 with its message. The run is undecided only while the given replies ran out. |
| `Retry.RunWithRetryExitsZeroIffPublished` | publishstatus-bitbucket.js:144-183 | With the retry performed, a run ends with status 0 exactly when help was asked for, or when the configuration and password are present and some attempt that is made gets a 2xx. |

## Left out

- Argument parsing by `minimist` (line 190) is an external library; the parsed flags are an input, every value a string. A bare switch such as `-h` or `-r` is the text `true` (`CmdConfig.SwitchOn`), which has the same truthiness and interpolation as the boolean, and `Response.RetryLimit` compares it as 1, as `Number(true)` does. minimist's other coercions are not modelled: `-r 0` becomes the number 0 (falsy, so the limit would be 100), a numeric text such as `1e3` becomes a number, and `--no-x` becomes the falsy `false`.
- `Response.RetryLimit`: a map of strings cannot tell an explicit `-r true` (or `--max-retry=true`) from the bare switch, so the model compares that text as 1, where minimist keeps it as the string `"true"` and line 154 compares it as NaN, never exhausting the limit. Only the bare switch is modelled exactly (`Response.BareSwitchExhaustsFirst`, `Publisher.ExampleBareSwitchCrashes`).
- `Js.ToNumber`: only plain decimal digits convert to a number; the other syntaxes `Number` accepts (sign, fraction, exponent, hexadecimal, surrounding blanks) are treated as NaN here.
- `printHelp` and the help text: the usage lines printed after every error and for `-h` are not part of the logs modelled.
- The HTTPS request, response streaming and the `'error'` event are network I/O; the reply (status code and whole body, or a connection error message) is an input.
- `Buffer.from(...).toString('base64')` is a foreign call; base64 is a function parameter.
- `JSON.stringify` of the payload: the body is the `Payload` record with optional fields, not its serialized text.
- `Publisher.Finish`: status 0 after a pending retry or a connection error assumes Node ends normally once nothing is scheduled; when the unread response lets it end is not modelled.
- `Retry.PublishWithRetry`: the replies are a finite sequence; when they run out with an attempt still due the result is `RetryPending` (and `Retry.RunWithRetry` gives None). No delay or backoff between attempts is modelled.

## Findings

| source | as written | input that shows it | evidently intended | confidence | as-written member | corrected member |
|---|---|---|---|---|---|---|
| publishstatus-bitbucket.js:155 | The exhaustion message interpolates `maxRetry`, which is not bound in `postStatus`. The ReferenceError ends the process before the limit, the status code or the body is printed. | The example flags plus `-r 1`, answered with 500 | Print the limit (`cmdConfig.maxRetry`), the status code and the body, then exit with status 1 | high; not executed | `Publisher.ExampleExhaustionCrashes` | `Retry.Report` |
| publishstatus-bitbucket.js:172-183 | The recursive retry is commented out. A transient reply with the limit not exceeded, or a connection error, leaves nothing scheduled, so the process ends with status 0 although nothing was published. | The example flags without `-r`, answered with 500 | Retry until a 2xx, a 401 or an exceeded limit; end with status 0 only after a 2xx | medium (assumes Node ends with status 0 once idle); not executed | `Publisher.ExampleServerErrorExitsZero` | `Retry.RunWithRetryExitsZeroIffPublished` |

=== FILE: buildserver.dfy ===
/**
 * Detection of the CI server the publisher runs under, and the values it
 * can derive from that server's environment variables
 * (`recognizeBuildServer` and the `tryGet*` helpers). The process
 * environment is an explicit map from variable name to value.
 */
module BuildServer {
  import opened Wrappers
  import Js

  type Env = map<string, string>

  /** `process.env[name]`: undefined when the variable is not set. */
  function Get(env: Env, name: string): Js.Value {
    if name in env then Some(env[name]) else None
  }

  /** The CI servers the script names; only Azure DevOps is ever recognized. */
  datatype BuilderType = Unknown | Jenkins | AzureDevOps | TeamCity

  /** The variable whose presence identifies an Azure DevOps agent. */
  const AzureMarker := "AGENT_OSARCHITECTURE"

  /** The CI server, recognized from the environment. */
  function RecognizeBuildServer(env: Env): (t: BuilderType)
    ensures t == AzureDevOps <==> Js.Truthy(Get(env, AzureMarker))
    ensures t != AzureDevOps ==> t == Unknown
  {
    if Js.Truthy(Get(env, AzureMarker)) then AzureDevOps else Unknown
  }

  predicate OnAzure(env: Env) {
    RecognizeBuildServer(env) == AzureDevOps
  }

  /** The commit being built, as the CI server reports it. */
  function TryGetCommitHash(env: Env): Js.Value {
    if OnAzure(env) then Get(env, "Build.SourceVersion") else None
  }

  /** The job status, as the CI server reports it. */
  function TryGetBuildStatus(env: Env): Js.Value {
    if OnAzure(env) then Get(env, "Agent.JobStatus") else None
  }

  /** The pipeline name: the definition name, else the job name. */
  function TryGetConfigurationName(env: Env): Js.Value {
    if OnAzure(env) then Js.Or(Get(env, "Build.DefinitionName"), Get(env, "Agent.JobName")) else None
  }

  /** The build name: `<configuration name> - <build number>`. */
  function TryGetBuildName(env: Env): Js.Value {
    if OnAzure(env) then
      Some(Js.Interpolate(TryGetConfigurationName(env)) + " - " + Js.Interpolate(Get(env, "Build.BuildNumber")))
    else None
  }

  /** The link to the build, as the CI server reports it. */
  function TryGetBuildUrl(env: Env): Js.Value {
    if OnAzure(env) then Get(env, "Build.BuildUri") else None
  }

  /** The description: never derived, whatever the CI server. */
  function TryGetDescription(env: Env): Js.Value {
    None
  }

  /** Off Azure DevOps, no value at all is derived from the environment. */
  lemma OnlyAzureDerivesValues(env: Env)
    requires !Js.Truthy(Get(env, AzureMarker))
    ensures TryGetCommitHash(env) == None
    ensures TryGetBuildStatus(env) == None
    ensures TryGetConfigurationName(env) == None
    ensures TryGetBuildName(env) == None
    ensures TryGetBuildUrl(env) == None
    ensures TryGetDescription(env) == None
  {
  }

  /**
   * On Azure DevOps the configuration name is the definition name when that
   * is set and non-empty, and otherwise whatever the job name is.
   */
  lemma ConfigurationNameFallback(env: Env)
    requires Js.Truthy(Get(env, AzureMarker))
    ensures Js.Truthy(Get(env, "Build.DefinitionName")) ==>
      TryGetConfigurationName(env) == Some(env["Build.DefinitionName"])
    ensures !Js.Truthy(Get(env, "Build.DefinitionName")) ==>
      TryGetConfigurationName(env) == Get(env, "Agent.JobName")
  {
  }

  /**
   * On Azure DevOps a build name is always derived and is never empty: an
   * unset configuration name or build number is spelled "undefined".
   */
  lemma AzureBuildNameAlwaysTruthy(env: Env)
    requires Js.Truthy(Get(env, AzureMarker))
    ensures Js.Truthy(TryGetBuildName(env))
    ensures TryGetBuildName(env) ==
      Some(Js.Interpolate(TryGetConfigurationName(env)) + " - " + Js.Interpolate(Get(env, "Build.BuildNumber")))
    ensures "Build.BuildNumber" !in env ==>
      TryGetBuildName(env) == Some(Js.Interpolate(TryGetConfigurationName(env)) + " - undefined")
  {
    var c := Js.Interpolate(TryGetConfigurationName(env));
    var b := Js.Interpolate(Get(env, "Build.BuildNumber"));
    assert TryGetBuildName(env) == Some(c + " - " + b);
    if "Build.BuildNumber" !in env {
      assert c + " - " + b == c + " - undefined";
    }
  }
}

=== FILE: config.dfy ===
/**
 * `composeCmdConfig`: resolving every field of the publish request from the
 * parsed command-line flags, the CI environment and the defaults, and
 * validating the five required fields in order.
 */
module CmdConfig {
  import opened Wrappers
  import Js
  import opened Errors
  import opened BuildServer

  /**
   * The parsed command line: flag name (short or long) to its value. A
   * switch given without a value is minimist's boolean `true`, kept here
   * as `SwitchOn`, its spelling in a template; an explicit text `true`
   * cannot be told apart from it.
   */
  type Flags = map<string, string>

  const SwitchOn := "true"

  /** `arg[name]`: undefined when the flag was not given. */
  function Flag(flags: Flags, name: string): Js.Value {
    if name in flags then Some(flags[name]) else None
  }

  const DefaultState := "SUCCESSFUL"
  const DefaultMaxRetry := 100

  /** The retry limit: the text of a flag, or the numeric default. */
  datatype MaxRetry = Given(text: string) | Default

  /** The JSON body: `name` and `description` appear only when known. */
  datatype Payload = Payload(
    state: string,
    key: string,
    url: string,
    name: Option<string>,
    description: Option<string>)

  datatype Config = Config(
    server: string,
    commit: string,
    username: string,
    maxRetry: MaxRetry,
    payload: Payload)

  /** A present optional field is never empty. */
  predicate PresentNonEmpty(o: Option<string>) {
    o.Some? ==> o.value != ""
  }

  /** What every configuration that passed validation satisfies. */
  predicate Valid(c: Config) {
    && c.server != ""
    && c.commit != ""
    && c.username != ""
    && (c.maxRetry.Given? ==> c.maxRetry.text != "")
    && c.payload.state != ""
    && c.payload.key != ""
    && c.payload.url != ""
    && PresentNonEmpty(c.payload.name)
    && PresentNonEmpty(c.payload.description)
  }

  // The sources of each field, highest priority first.

  function ServerSources(flags: Flags): seq<Js.Value> {
    [Flag(flags, "b"), Flag(flags, "bitbucket-server")]
  }

  function CommitSources(flags: Flags, env: Env): seq<Js.Value> {
    [Flag(flags, "c"), Flag(flags, "commit-hash"), TryGetCommitHash(env)]
  }

  function UsernameSources(flags: Flags, env: Env): seq<Js.Value> {
    [Flag(flags, "u"), Flag(flags, "username"), Get(env, "BITBUCKET_USERNAME")]
  }

  function MaxRetrySources(flags: Flags): seq<Js.Value> {
    [Flag(flags, "r"), Flag(flags, "max-retry")]
  }

  function StateSources(flags: Flags, env: Env): seq<Js.Value> {
    [Flag(flags, "s"), Flag(flags, "status"), TryGetBuildStatus(env)]
  }

  function KeySources(flags: Flags, env: Env): seq<Js.Value> {
    [Flag(flags, "p"), Flag(flags, "configuration"), TryGetConfigurationName(env)]
  }

  function UrlSources(flags: Flags, env: Env): seq<Js.Value> {
    [Flag(flags, "l"), Flag(flags, "build-url"), TryGetBuildUrl(env)]
  }

  function NameSources(flags: Flags, env: Env): seq<Js.Value> {
    [Flag(flags, "n"), Flag(flags, "build-name"), TryGetBuildName(env)]
  }

  function DescriptionSources(flags: Flags, env: Env): seq<Js.Value> {
    [Flag(flags, "d"), Flag(flags, "description"), TryGetDescription(env)]
  }

  /** A field is missing when none of its sources holds a non-empty value. */
  ghost predicate Missing(sources: seq<Js.Value>) {
    Js.NoneTruthy(sources)
  }

  /**
   * The configuration of one run, or the first required field found missing.
   * Required fields are checked in the order server, commit, username,
   * build key, build URL; every field takes the first non-empty value among
   * its sources; `state` and `maxRetry` fall back to their defaults, and
   * `name` and `description` are included only when some source gives them.
   */
  function ComposeCmdConfig(flags: Flags, env: Env): (r: Result<Config, Fatal>)
    ensures r == Failure(MissingServer) <==> Missing(ServerSources(flags))
    ensures r == Failure(MissingCommit) <==>
      !Missing(ServerSources(flags)) && Missing(CommitSources(flags, env))
    ensures r == Failure(MissingUsername) <==>
      !Missing(ServerSources(flags)) && !Missing(CommitSources(flags, env))
      && Missing(UsernameSources(flags, env))
    ensures r == Failure(MissingKey) <==>
      !Missing(ServerSources(flags)) && !Missing(CommitSources(flags, env))
      && !Missing(UsernameSources(flags, env)) && Missing(KeySources(flags, env))
    ensures r == Failure(MissingUrl) <==>
      !Missing(ServerSources(flags)) && !Missing(CommitSources(flags, env))
      && !Missing(UsernameSources(flags, env)) && !Missing(KeySources(flags, env))
      && Missing(UrlSources(flags, env))
    ensures r.Success? <==>
      !Missing(ServerSources(flags)) && !Missing(CommitSources(flags, env))
      && !Missing(UsernameSources(flags, env)) && !Missing(KeySources(flags, env))
      && !Missing(UrlSources(flags, env))
    ensures r.Success? ==> Valid(r.value)
    ensures r.Success? ==> Js.Selects(ServerSources(flags), r.value.server)
    ensures r.Success? ==> Js.Selects(CommitSources(flags, env), r.value.commit)
    ensures r.Success? ==> Js.Selects(UsernameSources(flags, env), r.value.username)
    ensures r.Success? ==> Js.Selects(KeySources(flags, env), r.value.payload.key)
    ensures r.Success? ==> Js.Selects(UrlSources(flags, env), r.value.payload.url)
    ensures r.Success? ==>
      if Missing(StateSources(flags, env)) then r.value.payload.state == DefaultState
      else Js.Selects(StateSources(flags, env), r.value.payload.state)
    ensures r.Success? ==>
      match r.value.maxRetry
      case Default => Missing(MaxRetrySources(flags))
      case Given(t) => Js.Selects(MaxRetrySources(flags), t)
    ensures r.Success? ==>
      match r.value.payload.name
      case None => Missing(NameSources(flags, env))
      case Some(n) => Js.Selects(NameSources(flags, env), n)
    ensures r.Success? ==>
      match r.value.payload.description
      case None => Missing(DescriptionSources(flags, env))
      case Some(d) => Js.Selects(DescriptionSources(flags, env), d)
  {
    var server := Js.Chain(ServerSources(flags));
    var commit := Js.Chain(CommitSources(flags, env));
    var username := Js.Chain(UsernameSources(flags, env));
    var retry := Js.Chain(MaxRetrySources(flags));
    var state := Js.Or(Js.Chain(StateSources(flags, env)), Some(DefaultState));
    var key := Js.Chain(KeySources(flags, env));
    var url := Js.Chain(UrlSources(flags, env));
    if !Js.Truthy(server) then Failure(MissingServer)
    else if !Js.Truthy(commit) then Failure(MissingCommit)
    else if !Js.Truthy(username) then Failure(MissingUsername)
    else if !Js.Truthy(key) then Failure(MissingKey)
    else if !Js.Truthy(url) then Failure(MissingUrl)
    else
      var name := Js.Chain(NameSources(flags, env));
      var description := Js.Chain(DescriptionSources(flags, env));
      Success(Config(
        server.value,
        commit.value,
        username.value,
        if Js.Truthy(retry) then Given(retry.value) else Default,
        Payload(
          state.value,
          key.value,
          url.value,
          if Js.Truthy(name) then Some(name.value) else None,
          if Js.Truthy(description) then Some(description.value) else None)))
  }

  /** The description comes from the flags alone: no CI server supplies one. */
  lemma DescriptionOnlyFromFlags(flags: Flags, env: Env)
    requires ComposeCmdConfig(flags, env).Success?
    ensures ComposeCmdConfig(flags, env).value.payload.description.Some? <==>
      Js.Truthy(Flag(flags, "d")) || Js.Truthy(Flag(flags, "description"))
  {
    var sources := DescriptionSources(flags, env);
    assert !Js.Truthy(sources[2]);
    assert Missing(sources) <==> !Js.Truthy(sources[0]) && !Js.Truthy(sources[1]);
  }

  /** The server has no environment fallback: without a flag the run always stops. */
  lemma ServerOnlyFromFlags(flags: Flags, env: Env)
    requires !Js.Truthy(Flag(flags, "b")) && !Js.Truthy(Flag(flags, "bitbucket-server"))
    ensures ComposeCmdConfig(flags, env) == Failure(MissingServer)
  {
  }

  /** `v` is the value of the first truthy of the flags `short` and `long`. */
  predicate FromFlags(flags: Flags, short: string, long: string, v: string) {
    if Js.Truthy(Flag(flags, short)) then flags[short] == v
    else Flag(flags, long) == Some(v) && v != ""
  }

  /** A chain of the two flags and an undefined fallback selects from the flags. */
  lemma SelectsFromFlags(vs: seq<Js.Value>, flags: Flags, short: string, long: string, v: string)
    requires vs == [Flag(flags, short), Flag(flags, long), None]
    requires Js.Selects(vs, v)
    ensures FromFlags(flags, short, long, v)
  {
    var i :| Js.IsFirstTruthy(vs, i) && vs[i] == Some(v);
    if i == 0 {
      assert Flag(flags, short) == Some(v);
    } else {
      assert i == 1 && !Js.Truthy(vs[0]);
      assert Flag(flags, long) == Some(v);
    }
  }

  /** Off Azure DevOps the commit, build key and build URL come from the flags alone. */
  lemma OffAzureRequiredFromFlags(flags: Flags, env: Env)
    requires !Js.Truthy(Get(env, AzureMarker))
    requires ComposeCmdConfig(flags, env).Success?
    ensures var c := ComposeCmdConfig(flags, env).value;
      && FromFlags(flags, "c", "commit-hash", c.commit)
      && FromFlags(flags, "p", "configuration", c.payload.key)
      && FromFlags(flags, "l", "build-url", c.payload.url)
  {
    OnlyAzureDerivesValues(env);
    var c := ComposeCmdConfig(flags, env).value;
    SelectsFromFlags(CommitSources(flags, env), flags, "c", "commit-hash", c.commit);
    SelectsFromFlags(KeySources(flags, env), flags, "p", "configuration", c.payload.key);
    SelectsFromFlags(UrlSources(flags, env), flags, "l", "build-url", c.payload.url);
  }

  /**
   * Off Azure DevOps the state falls back straight from the flags to
   * SUCCESSFUL, and a name is present only when a name flag gives one.
   */
  lemma OffAzureOnlyFlags(flags: Flags, env: Env)
    requires !Js.Truthy(Get(env, AzureMarker))
    requires ComposeCmdConfig(flags, env).Success?
    ensures var p := ComposeCmdConfig(flags, env).value.payload;
      && (!Js.Truthy(Flag(flags, "s")) && !Js.Truthy(Flag(flags, "status")) ==> p.state == DefaultState)
      && (p.name.Some? <==> Js.Truthy(Flag(flags, "n")) || Js.Truthy(Flag(flags, "build-name")))
  {
    OnlyAzureDerivesValues(env);
    var names := NameSources(flags, env);
    assert Missing(names) <==> !Js.Truthy(names[0]) && !Js.Truthy(names[1]);
    var states := StateSources(flags, env);
    assert Missing(states) <==> !Js.Truthy(states[0]) && !Js.Truthy(states[1]);
  }

  /**
   * On Azure DevOps the payload always carries a name: the derived build
   * name is never empty.
   */
  lemma AzureAlwaysNamesBuild(flags: Flags, env: Env)
    requires Js.Truthy(Get(env, AzureMarker))
    requires ComposeCmdConfig(flags, env).Success?
    ensures ComposeCmdConfig(flags, env).value.payload.name.Some?
  {
    AzureBuildNameAlwaysTruthy(env);
  }
}

=== FILE: errors.dfy ===
/**
 * The fatal errors of the status publisher. Each one is reported by
 * `errMessageAndExit`: an "ERROR." line with its own message, a blank line,
 * the usage help, and exit status 1.
 */
module Errors {

  datatype Fatal =
    | MissingServer
    | MissingCommit
    | MissingUsername
    | MissingKey
    | MissingUrl
    | MissingPassword
    | Unauthorized

  /** The message `errMessageAndExit` is given for each error. */
  function Message(f: Fatal): string {
    match f
    case MissingServer => "I need Bitbucket base URL to publish the status"
    case MissingCommit => "I need git commit hash to publish the status"
    case MissingUsername => "I need bitbucket username to publish the status"
    case MissingKey => "I need build configuration ID to publish the status"
    case MissingUrl => "I need a link to the build details to publish the status"
    case MissingPassword => "I need BITBUCKET_PASSWORD environment variable to publish the status"
    case Unauthorized => "Cannot authorize the request. Provide correct Bitbucket credential"
  }

  /** The lines printed before the usage help (the help text itself is not modelled). */
  function ErrorLines(f: Fatal): (lines: seq<string>)
    ensures |lines| == 2 && lines[1] == ""
    ensures lines[0] == "ERROR. " + Message(f) + "."
  {
    ["ERROR. " + Message(f) + ".", ""]
  }

  /** The exit status of every fatal error. */
  const FatalExitCode := 1
}

=== FILE: js.dfy ===
/**
 * The small part of JavaScript's value semantics that the status publisher
 * relies on: truthiness of possibly-undefined strings, the `||` operator,
 * template-literal interpolation, and the conversion `Number(text)` used
 * when a string is compared with a number.
 */
module Js {
  import opened Wrappers

  /** A value that is either `undefined` (None) or a string. */
  type Value = Option<string>

  /** JavaScript truthiness of such a value: `undefined` and `""` are falsy. */
  predicate Truthy(v: Value) {
    v.Some? && v.value != ""
  }

  /** `a || b`: the left operand when it is truthy, otherwise the right one as it is. */
  function Or(a: Value, b: Value): Value {
    if Truthy(a) then a else b
  }

  /** `${v}` inside a template literal. */
  function Interpolate(v: Value): string {
    match v
    case None => "undefined"
    case Some(s) => s
  }

  /** Index `i` holds the first truthy value of `vs`. */
  ghost predicate IsFirstTruthy(vs: seq<Value>, i: int) {
    && 0 <= i < |vs|
    && Truthy(vs[i])
    && forall j :: 0 <= j < i ==> !Truthy(vs[j])
  }

  /** No value of `vs` is truthy. */
  ghost predicate NoneTruthy(vs: seq<Value>) {
    forall j :: 0 <= j < |vs| ==> !Truthy(vs[j])
  }

  /** `s` is the first truthy value of `vs`, read in priority order. */
  ghost predicate Selects(vs: seq<Value>, s: string) {
    exists i :: IsFirstTruthy(vs, i) && vs[i] == Some(s)
  }

  /**
   * The chain `vs[0] || vs[1] || ... || vs[|vs|-1]`: the first truthy
   * operand, or the last operand when none is truthy.
   */
  function Chain(vs: seq<Value>): (r: Value)
    requires |vs| > 0
    ensures Truthy(r) <==> !NoneTruthy(vs)
    ensures Truthy(r) ==> Selects(vs, r.value)
    ensures forall i :: IsFirstTruthy(vs, i) ==> r == vs[i]
    ensures !Truthy(r) ==> r == vs[|vs| - 1]
  {
    if |vs| == 1 then
      vs[0]
    else if Truthy(vs[0]) then
      assert IsFirstTruthy(vs, 0);
      vs[0]
    else
      var rest := Chain(vs[1..]);
      assert forall i :: IsFirstTruthy(vs, i) ==> i > 0 && IsFirstTruthy(vs[1..], i - 1);
      assert forall i :: IsFirstTruthy(vs[1..], i) ==> IsFirstTruthy(vs, i + 1);
      assert forall j :: 1 <= j < |vs| ==> vs[j] == vs[1..][j - 1];
      rest
  }

  /** JavaScript numbers as far as the retry comparison needs them. */
  datatype Number = Finite(n: int) | NaN

  predicate IsDigit(c: char) {
    '0' <= c <= '9'
  }

  /** A non-empty run of decimal digits. */
  predicate IsDecimal(s: string) {
    |s| > 0 && forall i :: 0 <= i < |s| ==> IsDigit(s[i])
  }

  /** The value of a string of decimal digits, most significant digit first. */
  function DigitsValue(s: string): nat
    requires forall i :: 0 <= i < |s| ==> IsDigit(s[i])
  {
    if |s| == 0 then 0
    else
      assert IsDigit(s[|s| - 1]);
      DigitsValue(s[..|s| - 1]) * 10 + (s[|s| - 1] as int - '0' as int)
  }

  /**
   * `Number(s)` restricted to plain decimal digits: anything else is NaN
   * here (see README for the numeric syntaxes this does not cover).
   */
  function ToNumber(s: string): (r: Number)
    ensures r.Finite? <==> IsDecimal(s)
    ensures r.Finite? ==> r.n >= 0
  {
    if IsDecimal(s) then Finite(DigitsValue(s)) else NaN
  }

  /** `a > b` on numbers: every comparison with NaN is false. */
  predicate Greater(a: int, b: Number) {
    b.Finite? && a > b.n
  }

  function DigitChar(d: nat): (c: char)
    requires d < 10
    ensures IsDigit(c)
    ensures c as int - '0' as int == d
  {
    ('0' as int + d) as char
  }

  /** `${n}` for a natural number: its shortest decimal spelling. */
  function Decimal(n: nat): (r: string)
    ensures IsDecimal(r)
    ensures |r| > 1 ==> r[0] != '0'
    decreases n
  {
    if n < 10 then [DigitChar(n)] else Decimal(n / 10) + [DigitChar(n % 10)]
  }

  /** Reading back the decimal spelling of `n` gives `n`. */
  lemma {:induction false} DecimalRoundTrip(n: nat)
    ensures ToNumber(Decimal(n)) == Finite(n)
    decreases n
  {
    var r := Decimal(n);
    if n < 10 {
      assert r[..|r| - 1] == [];
    } else {
      DecimalRoundTrip(n / 10);
      assert r[..|r| - 1] == Decimal(n / 10);
      assert DigitsValue(Decimal(n / 10)) == n / 10;
    }
    assert DigitsValue(r) == n;
  }
}

=== FILE: publisher.dfy ===
/**
 * `doTheJob` as written: the help switch, the configuration, the request
 * and the decision on the single reply, and how the process then ends.
 */
module Publisher {
  import opened Wrappers
  import Js
  import opened Errors
  import opened BuildServer
  import opened CmdConfig
  import opened Request
  import opened Response

  predicate HelpRequested(flags: Flags) {
    Js.Truthy(Flag(flags, "h")) || Js.Truthy(Flag(flags, "help"))
  }

  /** How far one run gets. */
  datatype RunResult =
    | ShowedHelp
    | Aborted(error: Fatal)
    | Sent(request: HttpRequest, outcome: Outcome)

  /**
   * One run: help wins over everything; otherwise the configuration is
   * composed, the request built (which needs the password) and the single
   * reply decided with the initial counter.
   */
  function DoTheJob(flags: Flags, env: Env, base64: string -> string, reply: Reply): (r: RunResult)
    ensures r == ShowedHelp <==> HelpRequested(flags)
    ensures !HelpRequested(flags) && ComposeCmdConfig(flags, env).Failure? ==>
      r == Aborted(ComposeCmdConfig(flags, env).error)
    ensures r.Sent? <==>
      && !HelpRequested(flags)
      && ComposeCmdConfig(flags, env).Success?
      && Js.Truthy(Get(env, PasswordVariable))
    ensures r.Aborted? && ComposeCmdConfig(flags, env).Success? ==> r.error == MissingPassword
    ensures r.Sent? ==>
      var c := ComposeCmdConfig(flags, env).value;
      && r.request == BuildRequest(c, env, base64).value
      && r.request.url == Endpoint(c.server, c.commit)
      && r.request.body == c.payload
      && r.outcome == OnReply(reply, InitialRetryNum, RetryLimit(c.maxRetry))
  {
    if HelpRequested(flags) then ShowedHelp
    else
      match ComposeCmdConfig(flags, env)
      case Failure(e) => Aborted(e)
      case Success(c) =>
        match BuildRequest(c, env, base64)
        case Failure(e) => Aborted(e)
        case Success(request) =>
          Sent(request, OnReply(reply, InitialRetryNum, RetryLimit(c.maxRetry)))
  }

  /** How the process ends: an exit status with what it printed, or an uncaught exception. */
  datatype Termination = Exit(status: int, log: seq<string>) | Crash(exception: string)

  /** Node ends with status 1 on an uncaught exception. */
  function ExitStatus(t: Termination): int {
    match t
    case Exit(status, _) => status
    case Crash(_) => 1
  }

  const SuccessLine := "Successfully published the status."

  /** The exception line 155 raises: `maxRetry` is not bound there. */
  const UnboundMaxRetry := "ReferenceError: maxRetry is not defined"

  /**
   * How a run ends as written. Nothing is scheduled after a pending retry or
   * a connection error, so the process runs out of work and ends with
   * status 0; the exhaustion report throws before printing anything.
   */
  function Finish(r: RunResult): (t: Termination)
    ensures ExitStatus(t) == 0 <==>
      r.ShowedHelp? || (r.Sent? && (r.outcome.Published? || r.outcome.RetryPending? || r.outcome.ConnectionFailed?))
    ensures r.Sent? && r.outcome.Exhausted? ==> t == Crash(UnboundMaxRetry)
  {
    match r
    case ShowedHelp => Exit(0, [])
    case Aborted(e) => Exit(FatalExitCode, ErrorLines(e))
    case Sent(_, outcome) =>
      match outcome
      case Published => Exit(0, [SuccessLine])
      case AuthFailure => Exit(FatalExitCode, ErrorLines(Unauthorized))
      case Exhausted(_, _) => Crash(UnboundMaxRetry)
      case RetryPending(_) => Exit(0, [])
      case ConnectionFailed(message) => Exit(0, ["ERROR: " + message])
  }

  /**
   * As written, a run whose request got a transient status with the limit
   * not exceeded, or never reached the server, ends with status 0: the
   * status was not published, yet the caller sees success.
   */
  lemma UnpublishedRunExitsZero(request: HttpRequest, reply: Reply, limit: Js.Number)
    requires reply.ConnectionError? ||
      (IsTransientCode(reply.statusCode) && !Js.Greater(InitialRetryNum + 1, limit))
    ensures OnReply(reply, InitialRetryNum, limit) != Published
    ensures ExitStatus(Finish(Sent(request, OnReply(reply, InitialRetryNum, limit)))) == 0
  {
  }

  // A concrete invocation: the long flags for every required field, no other
  // flag the script reads, the password in the environment, no CI server.

  predicate IsExampleInvocation(flags: Flags, env: Env) {
    && Flag(flags, "bitbucket-server") == Some("git.example.com")
    && Flag(flags, "commit-hash") == Some("abc123")
    && Flag(flags, "username") == Some("bot")
    && Flag(flags, "configuration") == Some("ci-job")
    && Flag(flags, "build-url") == Some("http://ci/42")
    && Flag(flags, "b") == None && Flag(flags, "c") == None && Flag(flags, "u") == None
    && Flag(flags, "p") == None && Flag(flags, "l") == None
    && Flag(flags, "s") == None && Flag(flags, "status") == None
    && Flag(flags, "n") == None && Flag(flags, "build-name") == None
    && Flag(flags, "d") == None && Flag(flags, "description") == None
    && Flag(flags, "h") == None && Flag(flags, "help") == None
    && Get(env, PasswordVariable) == Some("secret")
    && Get(env, AzureMarker) == None
  }

  function ExampleFlags(): Flags {
    map[
      "bitbucket-server" := "git.example.com",
      "commit-hash" := "abc123",
      "username" := "bot",
      "configuration" := "ci-job",
      "build-url" := "http://ci/42"]
  }

  function ExampleEnv(): Env {
    map[PasswordVariable := "secret"]
  }

  /** The literal flags and environment are such an invocation, with or without `-r 1`. */
  lemma ExampleIsInvocation()
    ensures IsExampleInvocation(ExampleFlags(), ExampleEnv())
    ensures IsExampleInvocation(ExampleFlags()["r" := "1"], ExampleEnv())
  {
  }

  /** The example's configuration: the default state, no name, no description. */
  lemma ExampleConfig(flags: Flags, env: Env)
    requires IsExampleInvocation(flags, env)
    ensures ComposeCmdConfig(flags, env) ==
      Success(Config(
        "git.example.com", "abc123", "bot",
        if Js.Truthy(Flag(flags, "r")) then Given(flags["r"])
        else if Js.Truthy(Flag(flags, "max-retry")) then Given(flags["max-retry"])
        else Default,
        Payload("SUCCESSFUL", "ci-job", "http://ci/42", None, None)))
  {
    OnlyAzureDerivesValues(env);
    assert Js.Chain(ServerSources(flags)) == Some("git.example.com");
    assert Js.Chain(CommitSources(flags, env)) == Some("abc123");
    assert Js.Chain(UsernameSources(flags, env)) == Some("bot");
    assert Js.Chain(KeySources(flags, env)) == Some("ci-job");
    assert Js.Chain(UrlSources(flags, env)) == Some("http://ci/42");
    assert !Js.Truthy(Js.Chain(StateSources(flags, env)));
    assert !Js.Truthy(Js.Chain(NameSources(flags, env)));
    assert !Js.Truthy(Js.Chain(DescriptionSources(flags, env)));
  }

  /** The request built from the example's configuration. */
  lemma ExampleRequest(c: Config, env: Env, base64: string -> string)
    requires c.username == "bot"
    requires Get(env, PasswordVariable) == Some("secret")
    ensures BuildRequest(c, env, base64) ==
      Success(HttpRequest(
        "POST",
        Endpoint(c.server, c.commit),
        [("X-Atlassian-Token", "no-check"),
         ("Content-Type", "application/json"),
         ("Authorization", "Basic " + base64("bot:secret"))],
        c.payload))
  {
    assert Credential("bot", "secret") == "bot:secret";
  }

  /**
   * The example answered with 204: one POST to the commit's endpoint with
   * the Basic credential of bot:secret and the body {state, key, url}, then
   * success and status 0.
   */
  lemma ExampleRun(flags: Flags, env: Env, base64: string -> string)
    requires IsExampleInvocation(flags, env)
    requires Flag(flags, "r") == None && Flag(flags, "max-retry") == None
    ensures DoTheJob(flags, env, base64, Answered(204, "")) ==
      Sent(
        HttpRequest(
          "POST",
          Endpoint("git.example.com", "abc123"),
          [("X-Atlassian-Token", "no-check"),
           ("Content-Type", "application/json"),
           ("Authorization", "Basic " + base64("bot:secret"))],
          Payload("SUCCESSFUL", "ci-job", "http://ci/42", None, None)),
        Published)
    ensures Finish(DoTheJob(flags, env, base64, Answered(204, ""))) == Exit(0, [SuccessLine])
  {
    ExampleConfig(flags, env);
    ExampleRequest(ComposeCmdConfig(flags, env).value, env, base64);
  }

  /** The example answered with 500: not published, yet the process ends with status 0. */
  lemma ExampleServerErrorExitsZero(flags: Flags, env: Env, base64: string -> string)
    requires IsExampleInvocation(flags, env)
    requires Flag(flags, "r") == None && Flag(flags, "max-retry") == None
    ensures DoTheJob(flags, env, base64, Answered(500, "")).Sent?
    ensures DoTheJob(flags, env, base64, Answered(500, "")).outcome == RetryPending(2)
    ensures Finish(DoTheJob(flags, env, base64, Answered(500, ""))) == Exit(0, [])
  {
    ExampleConfig(flags, env);
    ExampleRequest(ComposeCmdConfig(flags, env).value, env, base64);
  }

  /** The example with `-r 1` answered with 500: the exhaustion report throws instead of printing. */
  lemma ExampleExhaustionCrashes(flags: Flags, env: Env, base64: string -> string)
    requires IsExampleInvocation(flags, env)
    requires Flag(flags, "r") == Some("1")
    ensures DoTheJob(flags, env, base64, Answered(500, "")).Sent?
    ensures DoTheJob(flags, env, base64, Answered(500, "")).outcome == Exhausted(Answered(500, ""), 2)
    ensures Finish(DoTheJob(flags, env, base64, Answered(500, ""))) == Crash(UnboundMaxRetry)
  {
    ExampleConfig(flags, env);
    ExampleRequest(ComposeCmdConfig(flags, env).value, env, base64);
    assert Js.DigitsValue("1") == 1;
  }

  /** The example with a bare `-r` answered with 500: the limit compares as 1, so the report throws. */
  lemma ExampleBareSwitchCrashes(flags: Flags, env: Env, base64: string -> string)
    requires IsExampleInvocation(flags, env)
    requires Flag(flags, "r") == Some(SwitchOn)
    ensures DoTheJob(flags, env, base64, Answered(500, "")).Sent?
    ensures DoTheJob(flags, env, base64, Answered(500, "")).outcome == Exhausted(Answered(500, ""), 2)
    ensures Finish(DoTheJob(flags, env, base64, Answered(500, ""))) == Crash(UnboundMaxRetry)
  {
    ExampleConfig(flags, env);
    ExampleRequest(ComposeCmdConfig(flags, env).value, env, base64);
  }
}

=== FILE: request.dfy ===
/**
 * The request `postStatus` sends: the build-status endpoint of the commit,
 * the headers with the Basic credential of `getAuthorization`, and the
 * payload as body. Base64 encoding is a parameter (`Buffer` is foreign).
 */
module Request {
  import opened Wrappers
  import Js
  import opened Errors
  import BuildServer
  import opened CmdConfig

  const Scheme := "https://"
  const StatusPath := "/rest/build-status/latest/commits/"

  /** The URL the status of `commit` is posted to on `server`. */
  function Endpoint(server: string, commit: string): string {
    Scheme + server + StatusPath + commit
  }

  /** Index of the first occurrence of `c` in `s`, if any. */
  function IndexOf(s: string, c: char): (r: Option<nat>)
    ensures r.None? <==> c !in s
    ensures r.Some? ==> r.value < |s| && s[r.value] == c && c !in s[..r.value]
  {
    if |s| == 0 then None
    else if s[0] == c then Some(0)
    else
      match IndexOf(s[1..], c)
      case None => None
      case Some(i) =>
        assert s[..i + 1] == [s[0]] + s[1..][..i];
        Some(i + 1)
  }

  /** Index of the last occurrence of `c` in `s`, if any. */
  function LastIndexOf(s: string, c: char): (r: Option<nat>)
    ensures r.None? <==> c !in s
    ensures r.Some? ==> r.value < |s| && s[r.value] == c && c !in s[r.value + 1..]
  {
    if |s| == 0 then None
    else if s[|s| - 1] == c then Some(|s| - 1)
    else
      var r := LastIndexOf(s[..|s| - 1], c);
      assert r.Some? ==> s[r.value + 1..] == s[..|s| - 1][r.value + 1..] + [s[|s| - 1]];
      r
  }

  /**
   * How the endpoint reads back: the commit is what follows the last '/',
   * and the server is what lies between the scheme and the status path.
   * A server may itself hold '/' (a base URL with a context path).
   */
  function ParseEndpoint(url: string): Option<(string, string)> {
    match LastIndexOf(url, '/')
    case None => None
    case Some(i) =>
      var head := url[..i + 1];
      if |head| < |Scheme| + |StatusPath| then None
      else if head[..|Scheme|] != Scheme || head[|head| - |StatusPath|..] != StatusPath then None
      else Some((head[|Scheme|..|head| - |StatusPath|], url[i + 1..]))
  }

  /** Any server and a commit without '/' (as every git hash is) are recovered from the endpoint. */
  lemma EndpointRoundTrip(server: string, commit: string)
    requires '/' !in commit
    ensures ParseEndpoint(Endpoint(server, commit)) == Some((server, commit))
  {
    var head := Scheme + server + StatusPath;
    assert Endpoint(server, commit) == head + commit;
    LastIndexOfBeforeSuffix(head, commit, '/');
    var url := head + commit;
    assert url[..|head|] == head;
    assert url[|head|..] == commit;
    assert head[..|Scheme|] == Scheme;
    assert head[|head| - |StatusPath|..] == StatusPath;
    assert head[|Scheme|..|head| - |StatusPath|] == server;
  }

  /** The last `c` of `a + b` is the last of `a` when `b` holds none and `a` ends with it. */
  lemma LastIndexOfBeforeSuffix(a: string, b: string, c: char)
    requires c !in b && |a| > 0 && a[|a| - 1] == c
    ensures LastIndexOf(a + b, c) == Some(|a| - 1)
  {
    var s := a + b;
    var r := LastIndexOf(s, c);
    assert s[|a| - 1] == c;
    assert r.Some?;
    assert forall k :: |a| <= k < |s| ==> s[k] == b[k - |a|];
    assert forall k :: r.value < k < |s| ==> s[k] == s[r.value + 1..][k - r.value - 1];
  }

  /** The first `c` of `a + b` is the first of `b` when `a` holds none. */
  lemma IndexOfAfterPrefix(a: string, b: string, c: char)
    requires c !in a && |b| > 0 && b[0] == c
    ensures IndexOf(a + b, c) == Some(|a|)
  {
    var r := IndexOf(a + b, c);
    assert (a + b)[|a|] == c;
    assert r.Some?;
    assert forall k :: 0 <= k < |a| ==> (a + b)[k] == a[k];
  }

  /** The user-pass string of Basic authentication. */
  function Credential(username: string, password: string): string {
    username + ":" + password
  }

  /** How a server splits a Basic credential: at its first ':'. */
  function SplitCredential(credential: string): Option<(string, string)> {
    match IndexOf(credential, ':')
    case None => None
    case Some(i) => Some((credential[..i], credential[i + 1..]))
  }

  /** A username without ':' and any password are recovered from the credential. */
  lemma CredentialRoundTrip(username: string, password: string)
    requires ':' !in username
    ensures SplitCredential(Credential(username, password)) == Some((username, password))
  {
    var cred := Credential(username, password);
    IndexOfAfterPrefix(username, ":" + password, ':');
    assert cred == username + (":" + password);
    assert cred[..|username|] == username;
    assert cred[|username| + 1..] == password;
  }

  const PasswordVariable := "BITBUCKET_PASSWORD"
  const BasicPrefix := "Basic "

  /**
   * The Authorization header value for `username`: an error unless the
   * password variable is set and non-empty, otherwise the Basic scheme with
   * the base64 encoding of `username:password`.
   */
  function GetAuthorization(username: string, env: BuildServer.Env, base64: string -> string): (r: Result<string, Fatal>)
    ensures r.Failure? <==> !Js.Truthy(BuildServer.Get(env, PasswordVariable))
    ensures r.Failure? ==> r.error == MissingPassword
    ensures r.Success? ==>
      && PasswordVariable in env
      && |r.value| >= |BasicPrefix|
      && r.value[..|BasicPrefix|] == BasicPrefix
      && r.value[|BasicPrefix|..] == base64(Credential(username, env[PasswordVariable]))
  {
    var password := BuildServer.Get(env, PasswordVariable);
    if !Js.Truthy(password) then Failure(MissingPassword)
    else Success(BasicPrefix + base64(Credential(username, password.value)))
  }

  datatype HttpRequest = HttpRequest(
    verb: string,
    url: string,
    headers: seq<(string, string)>,
    body: Payload)

  /** The request of one attempt, or the error that prevents sending it. */
  function BuildRequest(c: Config, env: BuildServer.Env, base64: string -> string): (r: Result<HttpRequest, Fatal>)
    ensures r.Failure? <==> GetAuthorization(c.username, env, base64).Failure?
    ensures r.Failure? ==> r.error == MissingPassword
    ensures r.Success? ==>
      && r.value.verb == "POST"
      && r.value.url == Endpoint(c.server, c.commit)
      && r.value.body == c.payload
      && r.value.headers == [
           ("X-Atlassian-Token", "no-check"),
           ("Content-Type", "application/json"),
           ("Authorization", GetAuthorization(c.username, env, base64).value)]
  {
    match GetAuthorization(c.username, env, base64)
    case Failure(e) => Failure(e)
    case Success(auth) =>
      Success(HttpRequest(
        "POST",
        Endpoint(c.server, c.commit),
        [("X-Atlassian-Token", "no-check"), ("Content-Type", "application/json"), ("Authorization", auth)],
        c.payload))
  }
}

=== FILE: response.dfy ===
/**
 * The response callback of `postStatus`: one decision step on the status
 * code, the attempt counter and the retry limit. The reply of the server
 * (or the connection error) is an input.
 */
module Response {
  import Js
  import opened CmdConfig

  /** What one attempt gets back. */
  datatype Reply = Answered(statusCode: nat, body: string) | ConnectionError(message: string)

  /** The decision taken on one reply. */
  datatype Outcome =
    | Published
    | AuthFailure
    | Exhausted(last: Reply, counter: int)
    | RetryPending(counter: int)
    | ConnectionFailed(message: string)

  /** The attempt counter `doTheJob` starts `postStatus` with. */
  const InitialRetryNum := 1

  /**
   * The limit `retryNum > cmdConfig.maxRetry` compares with: a flag's text
   * goes through `Number`, and a bare switch (boolean `true`) compares as 1.
   */
  function RetryLimit(m: MaxRetry): (n: Js.Number)
    ensures m == Default ==> n == Js.Finite(DefaultMaxRetry)
    ensures m == Given(SwitchOn) ==> n == Js.Finite(1)
    ensures m.Given? && m.text != SwitchOn ==> (n.Finite? <==> Js.IsDecimal(m.text))
  {
    match m
    case Default => Js.Finite(DefaultMaxRetry)
    case Given(text) => if text == SwitchOn then Js.Finite(1) else Js.ToNumber(text)
  }

  predicate IsSuccessCode(code: nat) {
    200 <= code < 300
  }

  /** Neither a success nor an authorization failure: counted against the limit. */
  predicate IsTransientCode(code: nat) {
    !IsSuccessCode(code) && code != 401
  }

  /**
   * The decision on a status code: 2xx succeeds, 401 fails for good, and
   * anything else advances the counter, which exhausts the limit exactly
   * when it exceeds it.
   */
  function Decide(code: nat, body: string, retryNum: int, limit: Js.Number): (o: Outcome)
    ensures o == Published <==> IsSuccessCode(code)
    ensures o == AuthFailure <==> code == 401
    ensures o.Exhausted? <==> IsTransientCode(code) && Js.Greater(retryNum + 1, limit)
    ensures o.RetryPending? <==> IsTransientCode(code) && !Js.Greater(retryNum + 1, limit)
    ensures o.Exhausted? ==> o == Exhausted(Answered(code, body), retryNum + 1)
    ensures o.RetryPending? ==> o.counter == retryNum + 1
    ensures !o.ConnectionFailed?
  {
    if IsSuccessCode(code) then Published
    else if code == 401 then AuthFailure
    else
      var next := retryNum + 1;
      if Js.Greater(next, limit) then Exhausted(Answered(code, body), next)
      else RetryPending(next)
  }

  /** The whole callback as written: a connection error is only logged. */
  function OnReply(reply: Reply, retryNum: int, limit: Js.Number): (o: Outcome)
    ensures reply.ConnectionError? ==> o == ConnectionFailed(reply.message)
    ensures reply.Answered? ==> o == Decide(reply.statusCode, reply.body, retryNum, limit)
  {
    match reply
    case Answered(code, body) => Decide(code, body, retryNum, limit)
    case ConnectionError(message) => ConnectionFailed(message)
  }

  /** Once the limit is exceeded, a larger counter exceeds it as well. */
  lemma ExhaustionMonotone(code: nat, body: string, r1: int, r2: int, limit: Js.Number)
    requires r1 <= r2
    requires Decide(code, body, r1, limit).Exhausted?
    ensures Decide(code, body, r2, limit).Exhausted?
  {
  }

  /**
   * With the initial counter, the first transient reply exhausts a numeric
   * limit exactly when that limit is below 2.
   */
  lemma FirstReplyExhaustsIff(code: nat, body: string, m: int)
    requires IsTransientCode(code)
    ensures Decide(code, body, InitialRetryNum, Js.Finite(m)).Exhausted? <==> m < 2
  {
  }

  /** A limit that is not a number is never exceeded: every comparison with NaN is false. */
  lemma NaNLimitNeverExhausts(code: nat, body: string, retryNum: int, text: string)
    requires !Js.IsDecimal(text) && text != SwitchOn
    ensures !Decide(code, body, retryNum, RetryLimit(Given(text))).Exhausted?
  {
  }

  /**
   * A bare `-r` or `--max-retry` switch is the boolean `true`, which compares
   * as 1: the first transient reply from the initial counter exhausts it.
   */
  lemma BareSwitchExhaustsFirst(code: nat, body: string)
    requires IsTransientCode(code)
    ensures Decide(code, body, InitialRetryNum, RetryLimit(Given(SwitchOn))) ==
      Exhausted(Answered(code, body), InitialRetryNum + 1)
  {
  }
}

=== FILE: retry.dfy ===
/**
 * The retry that the commented-out calls of `postStatus` leave undone,
 * performed: a transient status advances the counter as the callback does,
 * a connection error is counted as the transient failure the help text
 * speaks of (the error handler would pass the counter on unchanged), and
 * the attempts stop once the limit is exceeded (where the callback would
 * call again after its report). The replies the successive attempts get
 * are an input, in order.
 */
module Retry {
  import opened Wrappers
  import Js
  import opened Errors
  import opened BuildServer
  import opened CmdConfig
  import opened Request
  import opened Response
  import opened Publisher

  predicate IsPublished(reply: Reply) {
    reply.Answered? && IsSuccessCode(reply.statusCode)
  }

  predicate IsRejected(reply: Reply) {
    reply.Answered? && reply.statusCode == 401
  }

  /** A reply that counts against the limit: a transient status or a connection error. */
  predicate IsTransient(reply: Reply) {
    !IsPublished(reply) && !IsRejected(reply)
  }

  /** One attempt's decision; unlike the error handler, a connection error is counted. */
  function Step(reply: Reply, retryNum: int, limit: Js.Number): (o: Outcome)
    ensures o == Published <==> IsPublished(reply)
    ensures o == AuthFailure <==> IsRejected(reply)
    ensures o.Exhausted? <==> IsTransient(reply) && Js.Greater(retryNum + 1, limit)
    ensures o.Exhausted? ==> o == Exhausted(reply, retryNum + 1)
    ensures o.RetryPending? ==> o.counter == retryNum + 1
    ensures !o.ConnectionFailed?
  {
    match reply
    case Answered(code, body) => Decide(code, body, retryNum, limit)
    case ConnectionError(_) =>
      if Js.Greater(retryNum + 1, limit) then Exhausted(reply, retryNum + 1)
      else RetryPending(retryNum + 1)
  }

  /**
   * The attempts from counter `retryNum` on, each getting the next reply.
   * `RetryPending` means the replies ran out while another attempt was due.
   */
  function PublishWithRetry(replies: seq<Reply>, retryNum: int, limit: Js.Number): (o: Outcome)
    requires |replies| > 0
    ensures !o.ConnectionFailed?
    ensures o.RetryPending? ==>
      && o.counter == retryNum + |replies|
      && forall j :: 0 <= j < |replies| ==> IsTransient(replies[j])
    ensures o.Exhausted? ==> o.last in replies && IsTransient(o.last) && o.counter <= retryNum + |replies|
    decreases |replies|
  {
    var o := Step(replies[0], retryNum, limit);
    if o.RetryPending? && |replies| > 1 then
      var rest := PublishWithRetry(replies[1..], o.counter, limit);
      assert forall j :: 1 <= j < |replies| ==> replies[j] == replies[1..][j - 1];
      rest
    else o
  }

  /** Attempt `k` (counted from 0) is made: every earlier failure left the limit unexceeded. */
  predicate Issued(retryNum: int, limit: Js.Number, k: nat) {
    k == 0 || !Js.Greater(retryNum + k, limit)
  }

  /** Attempt `k` is made and is the first to get a 2xx reply. */
  ghost predicate SucceedsAt(replies: seq<Reply>, retryNum: int, limit: Js.Number, k: nat) {
    && k < |replies|
    && IsPublished(replies[k])
    && (forall j :: 0 <= j < k ==> IsTransient(replies[j]))
    && Issued(retryNum, limit, k)
  }

  /** The attempts end in success exactly when some attempt that is made gets a 2xx first. */
  lemma {:induction false} PublishedIff(replies: seq<Reply>, retryNum: int, limit: Js.Number)
    requires |replies| > 0
    ensures PublishWithRetry(replies, retryNum, limit) == Published <==>
      exists k: nat :: SucceedsAt(replies, retryNum, limit, k)
    decreases |replies|
  {
    var o := Step(replies[0], retryNum, limit);
    if IsPublished(replies[0]) {
      assert SucceedsAt(replies, retryNum, limit, 0);
    } else if !(o.RetryPending? && |replies| > 1) {
      assert !exists k: nat :: SucceedsAt(replies, retryNum, limit, k);
    } else {
      var rest := replies[1..];
      PublishedIff(rest, retryNum + 1, limit);
      if PublishWithRetry(rest, retryNum + 1, limit) == Published {
        var k: nat :| SucceedsAt(rest, retryNum + 1, limit, k);
        assert forall j :: 1 <= j < k + 1 ==> replies[j] == rest[j - 1];
        assert SucceedsAt(replies, retryNum, limit, k + 1);
      } else {
        forall k: nat | SucceedsAt(replies, retryNum, limit, k)
          ensures false
        {
          assert k > 0;
          assert forall j :: 0 <= j < k - 1 ==> rest[j] == replies[j + 1];
          assert SucceedsAt(rest, retryNum + 1, limit, k - 1);
        }
      }
    }
  }

  /** Attempt `k` is made and is the first to get a 401. */
  ghost predicate RejectedAt(replies: seq<Reply>, retryNum: int, limit: Js.Number, k: nat) {
    && k < |replies|
    && IsRejected(replies[k])
    && (forall j :: 0 <= j < k ==> IsTransient(replies[j]))
    && Issued(retryNum, limit, k)
  }

  /**
   * The attempts end in an authorization failure exactly when some attempt
   * that is made gets a 401 first: a 401 stops them whatever the limit left.
   */
  lemma {:induction false} RejectedIff(replies: seq<Reply>, retryNum: int, limit: Js.Number)
    requires |replies| > 0
    ensures PublishWithRetry(replies, retryNum, limit) == AuthFailure <==>
      exists k: nat :: RejectedAt(replies, retryNum, limit, k)
    decreases |replies|
  {
    var o := Step(replies[0], retryNum, limit);
    if IsRejected(replies[0]) {
      assert RejectedAt(replies, retryNum, limit, 0);
    } else if !(o.RetryPending? && |replies| > 1) {
      assert !exists k: nat :: RejectedAt(replies, retryNum, limit, k);
    } else {
      var rest := replies[1..];
      RejectedIff(rest, retryNum + 1, limit);
      if PublishWithRetry(rest, retryNum + 1, limit) == AuthFailure {
        var k: nat :| RejectedAt(rest, retryNum + 1, limit, k);
        assert forall j :: 1 <= j < k + 1 ==> replies[j] == rest[j - 1];
        assert RejectedAt(replies, retryNum, limit, k + 1);
      } else {
        forall k: nat | RejectedAt(replies, retryNum, limit, k)
          ensures false
        {
          assert k > 0;
          assert forall j :: 0 <= j < k - 1 ==> rest[j] == replies[j + 1];
          assert RejectedAt(rest, retryNum + 1, limit, k - 1);
        }
      }
    }
  }

  /** The number of attempts a numeric limit allows from counter `retryNum` on. */
  function AttemptsAllowed(retryNum: int, m: int): nat {
    if m <= retryNum then 1 else m - retryNum + 1
  }

  /**
   * When every reply the allowed attempts get is transient (whatever the
   * later replies are), the attempts stop exhausted after exactly
   * the allowed number of them, reporting the last reply they got.
   */
  lemma {:induction false} AllTransientExhausts(replies: seq<Reply>, retryNum: int, m: int)
    requires |replies| >= AttemptsAllowed(retryNum, m)
    requires forall j :: 0 <= j < AttemptsAllowed(retryNum, m) ==> IsTransient(replies[j])
    ensures var n := AttemptsAllowed(retryNum, m);
      PublishWithRetry(replies, retryNum, Js.Finite(m)) == Exhausted(replies[n - 1], retryNum + n)
    decreases |replies|
  {
    var o := Step(replies[0], retryNum, Js.Finite(m));
    assert IsTransient(replies[0]);
    if m > retryNum {
      assert o.RetryPending? && |replies| > 1;
      assert forall j :: 0 <= j < AttemptsAllowed(retryNum + 1, m) ==> replies[1..][j] == replies[j + 1];
      AllTransientExhausts(replies[1..], retryNum + 1, m);
      assert replies[1..][AttemptsAllowed(retryNum + 1, m) - 1] == replies[AttemptsAllowed(retryNum, m) - 1];
    }
  }

  /** The counter `doTheJob` starts with allows `maxRetry` attempts, and at least one. */
  lemma InitialAttempts(m: int)
    ensures AttemptsAllowed(InitialRetryNum, m) == if m < 1 then 1 else m
  {
  }

  /** The text the exhaustion report gives for the limit: the flag as typed, or 100. */
  function LimitText(m: MaxRetry): (s: string)
    ensures m.Given? ==> s == m.text
    ensures m.Default? ==> Js.ToNumber(s) == Js.Finite(DefaultMaxRetry)
  {
    Js.DecimalRoundTrip(DefaultMaxRetry);
    match m
    case Given(text) => text
    case Default => Js.Decimal(DefaultMaxRetry)
  }

  const StatusCodePrefix := "Response status code "

  /**
   * How the attempts end, as the callback evidently intends: success with
   * status 0; a 401 or an exhausted limit with status 1, the latter naming
   * the limit and the last status code and body (or connection error).
   */
  function Report(o: Outcome, m: MaxRetry): (t: Termination)
    requires o.Published? || o.AuthFailure? || o.Exhausted?
    ensures t.Exit?
    ensures t.status == 0 <==> o.Published?
    ensures !o.Published? ==> t.status == FatalExitCode
    ensures o.Exhausted? ==>
      |t.log| > 0 && t.log[0] == "Couldn't publish the status after " + LimitText(m) + " retries."
    ensures o.Exhausted? && o.last.Answered? ==>
      && |t.log| == 4
      && t.log[1] == StatusCodePrefix + Js.Decimal(o.last.statusCode)
      && t.log[3] == o.last.body
  {
    match o
    case Published => Exit(0, [SuccessLine])
    case AuthFailure => Exit(FatalExitCode, ErrorLines(Unauthorized))
    case Exhausted(last, _) =>
      var first := "Couldn't publish the status after " + LimitText(m) + " retries.";
      match last
      case Answered(code, body) =>
        Exit(FatalExitCode, [first, StatusCodePrefix + Js.Decimal(code), "Response body:", body])
      case ConnectionError(message) =>
        Exit(FatalExitCode, [first, "ERROR: " + message])
  }

  /** The status code line of an exhaustion report reads back as the last status code. */
  lemma ReportedCodeReadsBack(o: Outcome, m: MaxRetry)
    requires o.Exhausted? && o.last.Answered?
    ensures var line := Report(o, m).log[1];
      && |line| > |StatusCodePrefix|
      && line[..|StatusCodePrefix|] == StatusCodePrefix
      && Js.ToNumber(line[|StatusCodePrefix|..]) == Js.Finite(o.last.statusCode)
  {
    var line := Report(o, m).log[1];
    Js.DecimalRoundTrip(o.last.statusCode);
    assert line[|StatusCodePrefix|..] == Js.Decimal(o.last.statusCode);
  }

  /**
   * `doTheJob` with the retry performed: None while the replies given ran
   * out before the attempts ended, otherwise how the process ends.
   */
  function RunWithRetry(flags: Flags, env: Env, base64: string -> string, replies: seq<Reply>): (t: Option<Termination>)
    requires |replies| > 0
    ensures HelpRequested(flags) ==> t == Some(Exit(0, []))
    ensures !HelpRequested(flags) && ComposeCmdConfig(flags, env).Failure? ==>
      t == Some(Exit(FatalExitCode, ErrorLines(ComposeCmdConfig(flags, env).error)))
    ensures t.None? ==> PublishWithRetry(replies, InitialRetryNum,
      RetryLimit(ComposeCmdConfig(flags, env).value.maxRetry)).RetryPending?
  {
    if HelpRequested(flags) then Some(Exit(0, []))
    else
      match ComposeCmdConfig(flags, env)
      case Failure(e) => Some(Exit(FatalExitCode, ErrorLines(e)))
      case Success(c) =>
        match BuildRequest(c, env, base64)
        case Failure(e) => Some(Exit(FatalExitCode, ErrorLines(e)))
        case Success(_) =>
          var o := PublishWithRetry(replies, InitialRetryNum, RetryLimit(c.maxRetry));
          if o.RetryPending? then None else Some(Report(o, c.maxRetry))
  }

  /**
   * With the retry performed, a run ends with status 0 exactly when help
   * was asked for or some attempt that is made gets a 2xx reply first.
   */
  lemma RunWithRetryExitsZeroIffPublished(flags: Flags, env: Env, base64: string -> string, replies: seq<Reply>)
    requires |replies| > 0
    requires RunWithRetry(flags, env, base64, replies).Some?
    ensures RunWithRetry(flags, env, base64, replies).value == Exit(0, []) ==> HelpRequested(flags)
    ensures ExitStatus(RunWithRetry(flags, env, base64, replies).value) == 0 <==>
      || HelpRequested(flags)
      || (&& ComposeCmdConfig(flags, env).Success?
          && Js.Truthy(Get(env, PasswordVariable))
          && exists k: nat :: SucceedsAt(replies, InitialRetryNum,
               RetryLimit(ComposeCmdConfig(flags, env).value.maxRetry), k))
  {
    if !HelpRequested(flags) && ComposeCmdConfig(flags, env).Success? {
      var c := ComposeCmdConfig(flags, env).value;
      PublishedIff(replies, InitialRetryNum, RetryLimit(c.maxRetry));
    }
  }
}

=== FILE: wrappers.dfy ===
/** Failure-compatible helper datatypes shared by the whole model. */
module Wrappers {

  /** An optional value; in the JavaScript being modelled, `None` stands for `undefined`. */
  datatype Option<+T> = None | Some(value: T)

  /** Either a computed value or the error that stopped the computation. */
  datatype Result<+R, +E> = Success(value: R) | Failure(error: E)
}
